=== FILE: README.md ===
# MovieQuiz core, modelled in Dafny

MovieQuiz is an iOS trivia game. It loads a catalog of top-rated movies and asks
yes/no questions of the form "is this movie's rating greater (less) than N?". It
also keeps cross-session statistics. This project models the parts with real
logic, as pure functions over immutable data:

- **Question factory** (`question_factory.dfy`, module `QuestionFactory`). The
  catalog and the pool of unused catalog indices. `loadData` replaces the
  catalog. `requestNextQuestion` refills an empty pool with `0..<count`, draws
  one index and removes it, and looks the movie up with a safe subscript. It
  then downloads the poster, reads the rating (`Float(_) ?? 0`) and derives the
  threshold range `[Int(min), Int(max)]` from all parseable ratings, with
  defaults 0 and 10. Last, it picks a direction and computes the expected
  answer. The three random choices and the download outcome are an `Oracle`
  argument, constrained by `ValidOracle`.
- **Game records** (`game_record.dfy`, module `GameRecords`). The repository
  declares `GameRecord` twice, with two different `<`. One compares by correct
  count (`MovieQuiz/Services/StatisticService.swift`). The other compares by
  accuracy (`MovieQuiz/Models/GameRecord.swift`). Both are modelled, as
  `LessByCorrect` and `LessByAccuracy`, and `Ordering` selects one of them.
- **Statistics store** (`statistic_service.dfy`, module `StatisticService`).
  The four `UserDefaults` entries become one record. A missing or undecodable
  `bestGame` entry is `None`. `Store` is parameterised by the ordering, so it
  covers both declarations.
- **Presenter** (`presenter.dfy`, module `Presenter`). The question index,
  `isLastQuestion`, reset, switch, and the "k/10" label built by `convert`.
  As in the source, switching puts no upper bound on the index.
- **Question** (`quiz_question.dfy`, module `QuizQuestions`). The question
  record shared by the factory and the presenter: poster bytes, prompt text
  and expected answer.
- **Mock-data round** (`quiz_round.dfy`, module `QuizRound`). The
  self-contained view controller with ten fixed questions. It covers answer
  evaluation, the answer block during the one-second pause, the correct
  counter, the end-of-round totals and record, and "play again". The pause
  becomes a `PauseEnded` event. The results alert becomes a `resultsShown`
  flag: while it is on screen it covers the answer buttons, and its one action
  is "play again".
- `decimal.dfy` (module `Decimal`) renders an `Int` the way Swift string
  interpolation does, and parses it back. `wrappers.dfy` holds `Option` and
  `Result`.

Three behaviours of the code differ from what a reader of the app might expect. The model follows the code:

- `loadData` replaces `movies` but does not clear the index pool. Entries left
  over from a longer catalog are still drawn later; they name no movie, and the
  request ends without any callback (`StaleIndexIsConsumed`).
- With an empty catalog, `requestNextQuestion` sends no "no data" signal. It
  returns silently (`Silent`, see `EmptyCatalogIsSilent`).
- The code declares two orderings for the best game and does not settle on one, so the model keeps both and proves the store's properties
  for each.

## Model

| member | source | states |
|---|---|---|
| QuestionFactory.LoadData | MovieQuiz/Services/QuestionFactory.swift:16-30 | A successful load replaces the catalog wholesale and keeps the pool. A failure changes nothing and reports the loader's error. |
| QuestionFactory.Refill | MovieQuiz/Services/QuestionFactory.swift:37-39 | An empty pool becomes exactly `0..<count`. A non-empty pool is used as it is. |
| QuestionFactory.MinRating | MovieQuiz/Services/QuestionFactory.swift:64-65 | The minimum is at most every parseable rating, and 0 when no rating parses (RatingBounds adds that some movie has it). |
| QuestionFactory.MaxRating | MovieQuiz/Services/QuestionFactory.swift:64-66 | The maximum is at least every parseable rating, and 10 when no rating parses (RatingBounds adds that some movie has it). |
| QuestionFactory.RangeDistinct | MovieQuiz/Services/QuestionFactory.swift:38 | The refill has no repeated entries and holds exactly the indices `0 <= y < count`. |
| QuestionFactory.DrawnIndex | MovieQuiz/Services/QuestionFactory.swift:42 | The drawn index is an entry of the refilled pool. It is a valid catalog index when the draw came from a refill of a non-empty catalog. |
| QuestionFactory.Without | MovieQuiz/Services/QuestionFactory.swift:45 | Filtering keeps every entry other than the drawn one, drops every copy of it, and changes nothing when it is absent. |
| QuestionFactory.WithoutDistinct | MovieQuiz/Services/QuestionFactory.swift:45 | Filtering a pool with no repeated entries keeps it that way. It removes exactly one entry when the drawn index is present. |
| QuestionFactory.RatingValue | MovieQuiz/Services/QuestionFactory.swift:61 | The asked-about rating is the parsed rating, or 0 when it does not parse. |
| QuestionFactory.Ratings | MovieQuiz/Services/QuestionFactory.swift:64 | The compacted list holds exactly the parseable ratings of the catalog. It is empty iff no rating parses. |
| QuestionFactory.RatingBounds | MovieQuiz/Services/QuestionFactory.swift:64-66 | Min and max bound every parseable rating and are attained by some movie. They default to 0 and 10 when nothing parses. Always min <= max. |
| QuestionFactory.Trunc | MovieQuiz/Services/QuestionFactory.swift:69 | `Int(x)` truncates toward zero. For x >= 0 it is the largest integer <= x; for x < 0 it is the smallest integer >= x. |
| QuestionFactory.TruncMonotone | MovieQuiz/Services/QuestionFactory.swift:69 | Truncation preserves order, so `Int(min) <= Int(max)`. |
| QuestionFactory.ThresholdSpan | MovieQuiz/Services/QuestionFactory.swift:64-69 | The threshold range `[Int(min), Int(max)]` is never empty. Its width is a natural number. |
| QuestionFactory.Threshold | MovieQuiz/Services/QuestionFactory.swift:69 | Each admissible random choice gives a threshold inside `[Int(min), Int(max)]`. |
| QuestionFactory.SomeOracleIsValid | MovieQuiz/Services/QuestionFactory.swift:42-72 | Every factory state, whatever the image outcome, admits a valid random choice. The oracle constraint never blocks a request. |
| QuestionFactory.RequestNextQuestion | MovieQuiz/Services/QuestionFactory.swift:32-93 | The drawn index comes from the refilled pool. Afterwards the pool is the refill minus that index. An out-of-range index delivers nothing. A failed download reports an image failure; in both cases the index stays consumed. A question carries the downloaded bytes, a threshold in range, a prompt naming threshold and direction, and the answer `rating > t` / `rating < t`. |
| QuestionFactory.RequestShrinksPool | MovieQuiz/Services/QuestionFactory.swift:42-45 | From a pool with no repeated entries, a request keeps it that way and shrinks it by exactly one. |
| QuestionFactory.DrainPool | MovieQuiz/Services/QuestionFactory.swift:42-45 | Draining a pool of k distinct entries with k requests draws each entry exactly once and empties the pool. |
| QuestionFactory.NoRepeatWithinCycle | MovieQuiz/Services/QuestionFactory.swift:37-45 | From an empty pool over N movies, N requests draw N distinct indices, exactly `0..N-1`. The pool is then empty, so request N+1 starts a new cycle. |
| QuestionFactory.PoolStaysWithinCatalog | MovieQuiz/Services/QuestionFactory.swift:16-45 | Requests keep every pool entry a valid catalog index. After a reload this holds iff the new catalog covers every remaining entry. |
| QuestionFactory.StaleIndexIsConsumed | MovieQuiz/Services/QuestionFactory.swift:23-47 | A leftover entry beyond the reloaded catalog delivers nothing and is removed from the pool. |
| QuestionFactory.EmptyCatalogIsSilent | MovieQuiz/Services/QuestionFactory.swift:37-47 | With no movies and an empty pool, a request delivers nothing and leaves the state unchanged. |
| QuestionFactory.RequestBeforeLoadIsSilent | MovieQuiz/Services/QuestionFactory.swift:37-47 | Before any load, every offset up to 10 is a valid choice. A request then delivers nothing and leaves the factory as it was. |
| QuestionFactory.CorrectAnswer | MovieQuiz/Services/QuestionFactory.swift:72-82 | "Greater" answers yes iff rating > threshold, and "less" iff rating < threshold. A rating equal to the threshold answers no. |
| QuestionFactory.Prompt | MovieQuiz/Services/QuestionFactory.swift:74-80 | The prompt reads back. It is the fixed preamble, then "больше чем " for greater or "меньше чем " for less, then a decimal numeral that parses back to the threshold, then " ?". |
| QuestionFactory.AnswerDirections | MovieQuiz/Services/QuestionFactory.swift:72-82 | A rating equal to the threshold answers "no" in both directions. Otherwise exactly one direction answers "yes". "Greater" is "yes" iff rating > threshold. |
| QuestionFactory.AnswerExamples | MovieQuiz/Services/QuestionFactory.swift:76-82 | 7.5 vs 6 "greater" is true. 5.0 vs 5 is false in both directions. |
| QuestionFactory.PromptInjective | MovieQuiz/Services/QuestionFactory.swift:75-81 | Two prompts are equal iff they have the same threshold and the same direction. |
| QuestionFactory.TextDeterminesAnswer | MovieQuiz/Services/QuestionFactory.swift:75-86 | A delivered question's text fixes its expected answer, given the movie's rating. |
| Decimal.IntToString | MovieQuiz/Services/QuestionFactory.swift:76-79 | An interpolated `Int` is an optionally signed, non-empty run of digits, and it has a leading "-" exactly when the integer is negative. |
| Decimal.CounterLabel | MovieQuiz/Presentation/MovieQuizPresenter.swift:32 | The "position/count" label reads back. The digits before the first "/" parse to the position, and the digits after it parse to the count. |
| Decimal.CounterLabelInjective | MovieQuiz/Presentation/MovieQuizPresenter.swift:32 | Two labels with the same count are equal iff their positions are equal. |
| Decimal.IntRoundTrip | MovieQuiz/Services/QuestionFactory.swift:77 | Reading back an interpolated `Int` gives the same integer. |
| GameRecords.Accuracy | MovieQuiz/Models/GameRecord.swift:11-13 | Accuracy is 0 when total is 0, and otherwise satisfies `a * total == 100 * correct`. It lies in [0, 100] when 0 <= correct <= total. |
| GameRecords.LessByCorrect | MovieQuiz/Services/StatisticService.swift:14-16 | A game is below another iff it has at least one fewer correct answer. Equal counts are tied. |
| GameRecords.LessByAccuracy | MovieQuiz/Models/GameRecord.swift:15-17 | Equal accuracies are tied. A 0-question record is below exactly the records with positive accuracy. Two 0-question records are tied. |
| GameRecords.LessIsLowerScore | MovieQuiz/Services/StatisticService.swift:14-16 | Each ordering compares one score: correct count for one declaration, accuracy for the other. |
| GameRecords.StrictWeakOrder | MovieQuiz/Models/GameRecord.swift:15-17 | Both orderings are irreflexive, transitive and asymmetric, with transitive incomparability. |
| GameRecords.AccuracyTiesAreEqualAccuracy | MovieQuiz/Models/GameRecord.swift:11-17 | Under the accuracy ordering, two records are mutually not-less iff their accuracies are equal. |
| GameRecords.HalfAndHalfAreTied | MovieQuiz/Models/GameRecord.swift:11-17 | 5 of 10 and 1 of 2 are tied. |
| GameRecords.ZeroTotalNeverAbove | MovieQuiz/Models/GameRecord.swift:12-16 | A 0-question record is never above a record with non-negative counts. |
| GameRecords.OrderingsDisagree | MovieQuiz/Models/GameRecord.swift:15-17 | 4 of 5 beats 5 of 10 by accuracy but loses by correct count, the `<` at StatisticService.swift:14-16. |
| StatisticService.BestGame | MovieQuiz/Services/StatisticService.swift:25-32 | The getter returns the decoded record. With nothing readable it returns 0 of 0 dated now, rather than failing. |
| StatisticService.TotalAccuracy | MovieQuiz/Services/StatisticService.swift:52-58 | 0 when nothing was played. Otherwise the percentage: `a * total == 100 * correct`. |
| StatisticService.Store | MovieQuiz/Services/StatisticService.swift:60-76 | Adds exactly `count` to correct and `amount` to total, and increments gamesCount by one. It replaces bestGame iff the stored best is strictly below the new game; ties keep it. Afterwards the best is not below the new game. |
| StatisticService.StoreKeepsConsistent | MovieQuiz/Services/StatisticService.swift:52-76 | Storing a game with 0 <= correct <= total keeps the sums consistent, so totalAccuracy stays in [0, 100]. |
| StatisticService.BestNeverWorse | MovieQuiz/Services/StatisticService.swift:72-75 | The best game never gets worse under the store's ordering. By count, its `correct` never decreases; by accuracy, its accuracy never decreases. |
| StatisticService.StoreAllAggregates | MovieQuiz/Services/StatisticService.swift:60-76 | After any sequence of games the counters are exactly the sums and the game count. The best game is not below any game stored. |
| StatisticService.TwoGamesAverage | MovieQuiz/Services/StatisticService.swift:52-68 | 3 of 10 then 7 of 10 on a fresh store give 50%. |
| StatisticService.BestGameScenario | MovieQuiz/Services/StatisticService.swift:72-75 | 5/10 becomes best, 3/10 leaves it, 9/10 replaces it, under either ordering. |
| Presenter.Convert | MovieQuiz/Presentation/MovieQuizPresenter.swift:28-33 | The view model carries the question's bytes and text, and the label for position index+1 of 10. |
| Presenter.IsLastQuestion | MovieQuiz/Presentation/MovieQuizPresenter.swift:12-18 | Holds iff the index is 9, the last of 10 questions. |
| Presenter.ResetQuestionIndex | MovieQuiz/Presentation/MovieQuizPresenter.swift:20-22 | The index becomes 0: the presenter is back in its initial state. |
| Presenter.SwitchToNextQuestion | MovieQuiz/Presentation/MovieQuizPresenter.swift:24-26 | The index grows by exactly 1. The result is the last question only when the switch started from index 8. |
| Presenter.SwitchTimesAdvances | MovieQuiz/Presentation/MovieQuizPresenter.swift:24-26 | Each switch advances the index by exactly one. |
| Presenter.LastAfterNineSwitches | MovieQuiz/Presentation/MovieQuizPresenter.swift:12-26 | Reset sets the index to 0. After a reset and k switches, `isLastQuestion` holds iff k = 9. |
| Presenter.FirstQuestionNumber | MovieQuiz/Presentation/MovieQuizPresenter.swift:28-33 | A fresh presenter labels its question "1/10" and passes the text through. The presenter test asserts the same. |
| Presenter.QuestionNumberIdentifiesIndex | MovieQuiz/Presentation/MovieQuizPresenter.swift:32 | Two presenters show the same label iff they are at the same index. |
| QuizRound.InitValid | MovieQuiz/Presentation/MovieQuizViewController.swift:70-80 | The initial counters form a reachable, consistent state. |
| QuizRound.IsCorrect | MovieQuiz/Presentation/MovieQuizViewController.swift:96-102 | "Yes" is correct iff the question's answer is true. "No" is correct iff it is false. |
| QuizRound.ShowAnswerResult | MovieQuiz/Presentation/MovieQuizViewController.swift:118-133 | While blocked, an answer changes nothing. Otherwise it adds one on a correct answer only, and raises the block. |
| QuizRound.ShowNextQuestionOrResults | MovieQuiz/Presentation/MovieQuizViewController.swift:143-168 | On the last question, the round's score is added to the session sum and the results are shown. The record and its date change iff the score strictly beats the record. Score, index, quiz number and block stay as they were. Otherwise only the index advances, by one. |
| QuizRound.Step | MovieQuiz/Presentation/MovieQuizViewController.swift:96-183 | Every event keeps the state consistent and the index in [0, 9]. Answers follow IsCorrect and the block. The pause end clears the block and advances or ends the round. "Play again" zeroes the score and the index and increments the quiz number. The sum never exceeds 10 x quizzes. Each case states the whole next state: an answer changes only the score and the block; a mid-round pause end only the block and the index; quiz number, sum, record and its date change only at round end or on replay. |
| QuizRound.DisplayedAccuracy | MovieQuiz/Presentation/MovieQuizViewController.swift:148 | The average accuracy a satisfies a x (10 x quizzes) = 100 x the session sum. It is 0 when nothing was answered correctly. |
| QuizRound.RunKeepsValid | MovieQuiz/Presentation/MovieQuizViewController.swift:143-148 | Over any event sequence the state stays consistent, and the session totals and record never shrink. The displayed accuracy stays in [0, 100]. |
| QuizRound.AccuracyIsPercentage | MovieQuiz/Presentation/MovieQuizViewController.swift:147-148 | In every reachable state, `sumCorrectAnswers <= 10 x numberOfQuiz`, so the average is at most 100%. |
| QuizRound.QuestionNumber | MovieQuiz/Presentation/MovieQuizViewController.swift:108 | The counter shown with a question reads back. Before the slash is the one-based question number, and after it is the round length, 10. |
| QuizRound.PlayAgainRestarts | MovieQuiz/Presentation/MovieQuizViewController.swift:176-183 | "Play again" shows question "1/10" and keeps the session sum. |
| QuizRound.PerfectPlayScores | MovieQuiz/Presentation/MovieQuizViewController.swift:96-168 | Answering every remaining question correctly adds one per question. The round then ends with the score added to the session sum. |
| QuizRound.PerfectFirstRound | MovieQuiz/Presentation/MovieQuizViewController.swift:143-157 | A perfect first round scores 10, sets the record to 10 and shows 100%. |

## Left out

- Networking: `MoviesLoader`, the network client and JSON decoding of the catalog. `LoadData` takes the loader's result as an argument.
- The poster download (`Data(contentsOf:)`) is the `image` field of the oracle: bytes or failure. `Movie` stands for `MostPopularMovie` with its rating string already parsed. Its `resizedImageURL` and its `Codable` decoding are left out.
- Randomness: `randomElement()` and `Bool.random()` are the oracle's `pick`, `offset` and `moreThan`. Uniformity is not modelled, only which results are possible.
- Dispatch and concurrency: `DispatchQueue.global/main`, weak `self`/delegate captures, and the unsynchronised pool mutation on a background queue. Requests are modelled one at a time; delegate callbacks are returned values.
- Floating point: ratings, accuracies and the threshold comparison use exact reals, not `Float`/`Double`. `Float(_:)` parsing details (NaN, infinities, precision) and the "%.2f" formatting are not modelled.
- Swift `Int` overflow traps in `store` and in the counters. Integers are unbounded.
- `UserDefaults` persistence itself, and the `bestGame` JSON encoding and its never-taken failure branch (StatisticService.swift:35-37). The store is a plain record.
- Dates are opaque stamps. The clock is a parameter. `dateTimeString` becomes a string carried by the `PauseEnded` event.
- UI: images (`UIImage`), labels, alerts, haptics, border colours, loading indicators, the alert presenter and the view-controller protocol.

=== FILE: decimal.dfy ===
/** Decimal rendering of integers, as Swift string interpolation `"\(n)"`
    writes an `Int`, together with the reading that undoes it. The model uses
    it for the threshold in a question's prompt and for the "k/n" counter. */
module Decimal {

  predicate IsDigit(c: char) {
    '0' <= c <= '9'
  }

  predicate AllDigits(s: string) {
    forall i :: 0 <= i < |s| ==> IsDigit(s[i])
  }

  /** An optionally signed, non-empty run of decimal digits. */
  predicate IsNumeral(s: string) {
    if |s| > 0 && s[0] == '-' then |s| > 1 && AllDigits(s[1..]) else |s| > 0 && AllDigits(s)
  }

  function DigitChar(d: nat): (c: char)
    requires d < 10
    ensures IsDigit(c)
  {
    "0123456789"[d]
  }

  function DigitValue(c: char): (d: nat)
    requires IsDigit(c)
    ensures d < 10
  {
    (c as int - '0' as int) as nat
  }

  /** The digits of `n`, most significant first, without leading zeros. */
  function NatToString(n: nat): (s: string)
    ensures |s| > 0 && AllDigits(s)
    ensures |s| > 1 ==> s[0] != '0'
  {
    if n < 10 then [DigitChar(n)] else NatToString(n / 10) + [DigitChar(n % 10)]
  }

  /** `"\(i)"` for a Swift `Int`: a minus sign before the magnitude when negative. */
  function IntToString(i: int): (s: string)
    ensures IsNumeral(s)
    ensures s[0] == '-' <==> i < 0
  {
    if i < 0 then "-" + NatToString(-i) else NatToString(i)
  }

  /** Reads a string of decimal digits back as a number. */
  function ParseNat(s: string): nat
    requires AllDigits(s)
  {
    if |s| == 0 then 0 else ParseNat(s[..|s| - 1]) * 10 + DigitValue(s[|s| - 1])
  }

  /** Reads an optionally signed decimal string back as an integer. */
  function ParseInt(s: string): int
    requires IsNumeral(s)
  {
    if s[0] == '-' then 0 - ParseNat(s[1..]) as int else ParseNat(s)
  }

  lemma DigitRoundTrip(d: nat)
    requires d < 10
    ensures DigitValue(DigitChar(d)) == d
  {
  }

  lemma {:induction false} NatRoundTrip(n: nat)
    ensures ParseNat(NatToString(n)) == n
  {
    var s := NatToString(n);
    if n < 10 {
      DigitRoundTrip(n);
      assert s[..|s| - 1] == [];
    } else {
      var prefix := NatToString(n / 10);
      assert s == prefix + [DigitChar(n % 10)];
      assert s[..|s| - 1] == prefix;
      NatRoundTrip(n / 10);
      DigitRoundTrip(n % 10);
    }
  }

  /** Reading the rendering of any integer gives the integer back. */
  lemma IntRoundTrip(i: int)
    ensures ParseInt(IntToString(i)) == i
  {
    if i < 0 {
      NegativeRoundTrip(-i);
    } else {
      NatRoundTrip(i);
    }
  }

  /** A minus sign before the digits of `n` reads back as `-n`. */
  lemma NegativeRoundTrip(n: nat)
    requires n > 0
    ensures IsNumeral("-" + NatToString(n))
    ensures ParseInt("-" + NatToString(n)) == -(n as int)
  {
    var digits := NatToString(n);
    var s := "-" + digits;
    assert s[0] == '-';
    assert s[1..] == digits;
    NatRoundTrip(n);
  }

  /** Distinct integers are rendered as distinct strings. */
  lemma IntToStringInjective(a: int, b: int)
    ensures IntToString(a) == IntToString(b) <==> a == b
  {
    if IntToString(a) == IntToString(b) {
      IntRoundTrip(a);
      IntRoundTrip(b);
    }
  }

  /** The "k/n" counter label, as `"\(k)/\(n)"`. */
  function CounterLabel(position: int, count: int): (s: string)
    ensures |s| >= 3
    ensures var n := |IntToString(position)|;
            n < |s| && s[n] == '/' && '/' !in s[..n]
            && IsNumeral(s[..n]) && ParseInt(s[..n]) == position
            && IsNumeral(s[n + 1..]) && ParseInt(s[n + 1..]) == count
  {
    var head := IntToString(position);
    var tail := IntToString(count);
    var s := head + "/" + tail;
    assert s[..|head|] == head && s[|head| + 1..] == tail;
    IntRoundTrip(position);
    IntRoundTrip(count);
    s
  }

  /** Two labels for the same total are equal exactly when their positions are. */
  lemma CounterLabelInjective(p1: int, p2: int, count: int)
    ensures CounterLabel(p1, count) == CounterLabel(p2, count) <==> p1 == p2
  {
    if CounterLabel(p1, count) == CounterLabel(p2, count) {
      var s := CounterLabel(p1, count);
      var n1, n2 := |IntToString(p1)|, |IntToString(p2)|;
      assert n1 == n2;
      assert p1 == ParseInt(s[..n1]) == p2;
    }
  }
}

=== FILE: game_record.dfy ===
/** A finished round's result and the two "worse than" orderings the
    repository defines on it: by raw correct count (the record declared in
    StatisticService.swift) and by accuracy (the record in GameRecord.swift). */
module GameRecords {

  /** When a record was set. The model never looks inside it. */
  datatype Date = Date(stamp: int)

  datatype GameRecord = GameRecord(correct: int, total: int, date: Date)

  /** Percentage of correct answers; a record with no questions scores 0. */
  function Accuracy(g: GameRecord): (a: real)
    ensures g.total == 0 ==> a == 0.0
    ensures g.total != 0 ==> a * (g.total as real) == 100.0 * (g.correct as real)
    ensures 0 <= g.correct <= g.total ==> 0.0 <= a <= 100.0
  {
    if g.total != 0 then 100.0 * (g.correct as real) / (g.total as real) else 0.0
  }

  /** `<` of the record in StatisticService.swift: fewer correct answers. */
  function LessByCorrect(a: GameRecord, b: GameRecord): (less: bool)
    ensures less <==> b.correct - a.correct >= 1
    ensures a.correct == b.correct ==> !less
  {
    a.correct < b.correct
  }

  /** `<` of the record in GameRecord.swift: lower accuracy. */
  function LessByAccuracy(a: GameRecord, b: GameRecord): (less: bool)
    ensures a.total == 0 ==> (less <==> Accuracy(b) > 0.0)
    ensures a.total == 0 && b.total == 0 ==> !less
    ensures Accuracy(a) == Accuracy(b) ==> !less
  {
    Accuracy(a) < Accuracy(b)
  }

  /** Which of the two orderings a statistics store compares games with. */
  datatype Ordering = ByCorrect | ByAccuracy

  /** The number each ordering compares. */
  function Score(o: Ordering, g: GameRecord): real {
    match o
    case ByCorrect => g.correct as real
    case ByAccuracy => Accuracy(g)
  }

  predicate Less(o: Ordering, a: GameRecord, b: GameRecord) {
    match o
    case ByCorrect => LessByCorrect(a, b)
    case ByAccuracy => LessByAccuracy(a, b)
  }

  /** Both orderings compare a single score; `a < b` exactly when `a` scores lower. */
  lemma LessIsLowerScore(o: Ordering, a: GameRecord, b: GameRecord)
    ensures Less(o, a, b) <==> Score(o, a) < Score(o, b)
  {
  }

  /** Each ordering is a strict weak order: irreflexive, transitive, and
      incomparability (neither is less) is transitive too. */
  lemma StrictWeakOrder(o: Ordering, a: GameRecord, b: GameRecord, c: GameRecord)
    ensures !Less(o, a, a)
    ensures Less(o, a, b) && Less(o, b, c) ==> Less(o, a, c)
    ensures Less(o, a, b) ==> !Less(o, b, a)
    ensures !Less(o, a, b) && !Less(o, b, a) && !Less(o, b, c) && !Less(o, c, b)
            ==> !Less(o, a, c) && !Less(o, c, a)
  {
    LessIsLowerScore(o, a, b);
    LessIsLowerScore(o, b, c);
    LessIsLowerScore(o, a, c);
    LessIsLowerScore(o, b, a);
    LessIsLowerScore(o, c, b);
    LessIsLowerScore(o, c, a);
  }

  /** Under the accuracy ordering two records are mutually not-less exactly
      when their accuracies coincide. */
  lemma AccuracyTiesAreEqualAccuracy(a: GameRecord, b: GameRecord)
    ensures !LessByAccuracy(a, b) && !LessByAccuracy(b, a) <==> Accuracy(a) == Accuracy(b)
  {
  }

  /** 5 of 10 and 1 of 2 are tied under the accuracy ordering. */
  lemma HalfAndHalfAreTied(d1: Date, d2: Date)
    ensures var a, b := GameRecord(5, 10, d1), GameRecord(1, 2, d2);
            !LessByAccuracy(a, b) && !LessByAccuracy(b, a)
  {
    assert Accuracy(GameRecord(5, 10, d1)) == 50.0;
    assert Accuracy(GameRecord(1, 2, d2)) == 50.0;
  }

  /** A record with no questions is never strictly above a record with
      non-negative counts. */
  lemma ZeroTotalNeverAbove(z: GameRecord, g: GameRecord)
    requires z.total == 0
    requires g.correct >= 0 && g.total >= 0
    ensures !LessByAccuracy(g, z)
  {
    if g.total != 0 {
      assert Accuracy(g) * (g.total as real) >= 0.0;
    }
  }

  /** The orderings disagree: 4 of 5 beats 5 of 10 on accuracy but loses on count. */
  lemma OrderingsDisagree(d1: Date, d2: Date)
    ensures var a, b := GameRecord(4, 5, d1), GameRecord(5, 10, d2);
            LessByAccuracy(b, a) && LessByCorrect(a, b)
  {
    assert Accuracy(GameRecord(4, 5, d1)) == 80.0;
    assert Accuracy(GameRecord(5, 10, d2)) == 50.0;
  }
}

=== FILE: presenter.dfy ===
/** The presenter's question counter and the step view it builds from a
    question. */
module Presenter {
  import Decimal
  import QuizQuestions

  /** Questions per round. */
  const QuestionsAmount: int := 10

  datatype Presenter = Presenter(currentQuestionIndex: int)

  /** What the screen shows for one question; the image is the question's
      bytes (decoding them into a picture is left to the view). */
  datatype QuizStepViewModel = QuizStepViewModel(image: seq<int>, question: string, questionNumber: string)

  function Init(): (p: Presenter)
    ensures p.currentQuestionIndex == 0
  {
    Presenter(0)
  }

  /** On the tenth question, the one labelled "10/10". */
  predicate IsLastQuestion(p: Presenter)
    ensures IsLastQuestion(p) <==> p.currentQuestionIndex == 9
  {
    p.currentQuestionIndex == QuestionsAmount - 1
  }

  function ResetQuestionIndex(p: Presenter): (q: Presenter)
    ensures q.currentQuestionIndex == 0
    ensures q == Init()
  {
    Presenter(0)
  }

  function SwitchToNextQuestion(p: Presenter): (q: Presenter)
    ensures q.currentQuestionIndex == p.currentQuestionIndex + 1
    ensures !IsLastQuestion(q) || p.currentQuestionIndex == QuestionsAmount - 2
  {
    Presenter(p.currentQuestionIndex + 1)
  }

  /** `convert(model:)`: the question's bytes and text, and the 1-based
      "k/10" counter. */
  function Convert(p: Presenter, model: QuizQuestions.QuizQuestion): (v: QuizStepViewModel)
    ensures v.image == model.image && v.question == model.text
    ensures v.questionNumber == Decimal.CounterLabel(p.currentQuestionIndex + 1, QuestionsAmount)
  {
    QuizStepViewModel(model.image, model.text,
      Decimal.IntToString(p.currentQuestionIndex + 1) + "/" + Decimal.IntToString(QuestionsAmount))
  }

  /** `k` consecutive `switchToNextQuestion` calls. */
  function SwitchTimes(p: Presenter, k: nat): Presenter {
    if k == 0 then p else SwitchToNextQuestion(SwitchTimes(p, k - 1))
  }

  /** Each switch advances the index by exactly one. */
  lemma {:induction false} SwitchTimesAdvances(p: Presenter, k: nat)
    ensures SwitchTimes(p, k).currentQuestionIndex == p.currentQuestionIndex + k
  {
    if k > 0 {
      SwitchTimesAdvances(p, k - 1);
    }
  }

  /** After a reset and `k` switches the presenter is on the last question
      exactly when `k` is 9. */
  lemma LastAfterNineSwitches(p: Presenter, k: nat)
    ensures ResetQuestionIndex(p).currentQuestionIndex == 0
    ensures IsLastQuestion(SwitchTimes(ResetQuestionIndex(p), k)) <==> k == 9
  {
    SwitchTimesAdvances(ResetQuestionIndex(p), k);
  }

  /** A fresh presenter labels its question "1/10". */
  lemma FirstQuestionNumber(model: QuizQuestions.QuizQuestion)
    ensures Convert(Init(), model).questionNumber == "1/10"
    ensures Convert(Init(), model).question == model.text
  {
    assert Decimal.IntToString(1) == "1";
    assert Decimal.IntToString(10) == Decimal.NatToString(1) + [Decimal.DigitChar(0)] == "10";
  }

  /** The counter label tells questions apart: two positions share a label
      only when they are the same position. */
  lemma QuestionNumberIdentifiesIndex(p1: Presenter, p2: Presenter, model: QuizQuestions.QuizQuestion)
    ensures Convert(p1, model).questionNumber == Convert(p2, model).questionNumber
            <==> p1 == p2
  {
    Decimal.CounterLabelInjective(p1.currentQuestionIndex + 1, p2.currentQuestionIndex + 1, QuestionsAmount);
  }
}

=== FILE: question_factory.dfy ===
/** The question factory: the loaded catalog, the pool of catalog indices not
    yet used in the current cycle, and the request that draws one index and
    turns that movie into a yes/no rating-comparison question.

    The three random choices (which pool entry, which threshold, which
    direction) and the outcome of the poster download are inputs, collected
    in an `Oracle`; everything else is a function of the catalog and the pool. */
module QuestionFactory {
  import opened Wrappers
  import Decimal
  import opened QuizQuestions

  /** A catalog entry. `rating` is the rating string after `Float(_:)`:
      `None` when it does not parse. */
  datatype Movie = Movie(id: string, title: string, rating: Option<real>, imageURL: string)

  /** The factory's state: `movies` and `arrayQuestionIndex`. */
  datatype Factory = Factory(movies: seq<Movie>, pool: seq<int>)

  /** Why the catalog could not be loaded (transport or decoding). */
  datatype LoadError = LoadError(description: string)

  /** What `loadData` reports to its delegate. */
  datatype LoadSignal = DidLoadDataFromServer | DidFailToLoadData(error: LoadError)

  /** What one `requestNextQuestion` reports to its delegate: nothing at all
      when the drawn index names no movie, an image failure, or a question. */
  datatype Delivery = Silent | DidFailToLoadImage | DidReceiveNextQuestion(question: QuizQuestion)

  /** The random choices of one request and the poster download's outcome:
      `pick` indexes the (refilled) pool, `offset` is the threshold's distance
      above the range's lower end, `moreThan` is the direction, and `image` is
      the downloaded bytes or `None` when the download throws. */
  datatype Oracle = Oracle(pick: nat, offset: nat, moreThan: bool, image: Option<seq<int>>)

  /** One request's effect: the new state, the index drawn, what was delivered. */
  datatype Response = Response(factory: Factory, index: int, delivery: Delivery)

  function Init(): (f: Factory)
    ensures |f.movies| == 0 && |f.pool| == 0
  {
    Factory([], [])
  }

  predicate Distinct(s: seq<int>) {
    forall i, j :: 0 <= i < j < |s| ==> s[i] != s[j]
  }

  // ---------------------------------------------------------------- loading

  /** `loadData` once the loader has answered: a success replaces the catalog
      wholesale and leaves the pool as it was; a failure changes nothing. */
  function LoadData(f: Factory, result: Result<seq<Movie>, LoadError>): (r: (Factory, LoadSignal))
    ensures result.Success? ==> r.0 == Factory(result.value, f.pool) && r.1 == DidLoadDataFromServer
    ensures result.Failure? ==> r.0 == f && r.1 == DidFailToLoadData(result.error)
  {
    match result
    case Success(movies) => (f.(movies := movies), DidLoadDataFromServer)
    case Failure(e) => (f, DidFailToLoadData(e))
  }

  // ---------------------------------------------------------------- the pool

  /** `Array(0..<n)`. */
  function Range(n: nat): (s: seq<int>)
    ensures |s| == n
    ensures forall i :: 0 <= i < n ==> s[i] == i
  {
    seq(n, i => i)
  }

  lemma RangeDistinct(n: nat)
    ensures Distinct(Range(n))
    ensures forall y :: y in Range(n) <==> 0 <= y < n
  {
    forall y | 0 <= y < n
      ensures y in Range(n)
    {
      assert Range(n)[y] == y;
    }
  }

  /** The pool a request draws from: the current one, or every catalog index
      when the current one is empty. */
  function Refill(pool: seq<int>, count: nat): (p: seq<int>)
    ensures |pool| == 0 ==> p == Range(count)
    ensures |pool| > 0 ==> p == pool
  {
    if |pool| == 0 then Range(count) else pool
  }

  /** `filter { $0 != x }`. */
  function Without(s: seq<int>, x: int): (r: seq<int>)
    ensures forall y :: y in r <==> y in s && y != x
    ensures x !in s ==> r == s
    ensures |r| <= |s|
  {
    if |s| == 0 then []
    else if s[0] == x then Without(s[1..], x)
    else [s[0]] + Without(s[1..], x)
  }

  lemma {:induction false} WithoutDistinct(s: seq<int>, x: int)
    requires Distinct(s)
    ensures Distinct(Without(s, x))
    ensures x in s ==> |Without(s, x)| == |s| - 1
  {
    if |s| > 0 {
      var t := s[1..];
      assert Distinct(t);
      WithoutDistinct(t, x);
      if s[0] == x {
        assert x !in t;
        assert Without(t, x) == t;
      } else {
        var r := [s[0]] + Without(t, x);
        assert s[0] !in t;
        assert s[0] !in Without(t, x);
        forall i, j | 0 <= i < j < |r|
          ensures r[i] != r[j]
        {
          if i == 0 {
            assert r[j] in Without(t, x);
          } else {
            assert r[i] == Without(t, x)[i - 1] && r[j] == Without(t, x)[j - 1];
          }
        }
        if x in s {
          assert x in t;
        }
      }
    }
  }

  /** The index a request draws: the picked pool entry, or 0 (`?? 0`) when even
      the refilled pool is empty. */
  function DrawnIndex(f: Factory, pick: nat): (index: int)
    requires var p := Refill(f.pool, |f.movies|); |p| == 0 || pick < |p|
    ensures var p := Refill(f.pool, |f.movies|); |p| > 0 ==> index in p
    ensures |f.pool| == 0 && |f.movies| > 0 ==> 0 <= index < |f.movies|
  {
    var p := Refill(f.pool, |f.movies|);
    if |p| == 0 then 0 else p[pick]
  }

  // ---------------------------------------------------------------- ratings

  /** `Float(rating) ?? 0`: the rating a question is asked about. */
  function RatingValue(m: Movie): (r: real)
    ensures m.rating.Some? ==> r == m.rating.value
    ensures m.rating.None? ==> r == 0.0
  {
    m.rating.GetOr(0.0)
  }

  /** `compactMap { Float($0.rating) }`: the parseable ratings, in catalog order. */
  function Ratings(ms: seq<Movie>): (rs: seq<real>)
    ensures forall i :: 0 <= i < |ms| && ms[i].rating.Some? ==> ms[i].rating.value in rs
    ensures forall x :: x in rs ==> exists i :: 0 <= i < |ms| && ms[i].rating == Some(x)
    ensures |rs| == 0 <==> forall i :: 0 <= i < |ms| ==> ms[i].rating.None?
  {
    if |ms| == 0 then []
    else
      var rest := Ratings(ms[1..]);
      assert forall i :: 1 <= i < |ms| ==> ms[i] == ms[1..][i - 1];
      match ms[0].rating
      case Some(x) => [x] + rest
      case None => rest
  }

  function SeqMin(xs: seq<real>): (m: real)
    requires |xs| > 0
    ensures m in xs
    ensures forall i :: 0 <= i < |xs| ==> m <= xs[i]
  {
    if |xs| == 1 then xs[0]
    else
      var m' := SeqMin(xs[1..]);
      assert forall i :: 1 <= i < |xs| ==> xs[i] == xs[1..][i - 1];
      if xs[0] <= m' then xs[0] else m'
  }

  function SeqMax(xs: seq<real>): (m: real)
    requires |xs| > 0
    ensures m in xs
    ensures forall i :: 0 <= i < |xs| ==> xs[i] <= m
  {
    if |xs| == 1 then xs[0]
    else
      var m' := SeqMax(xs[1..]);
      assert forall i :: 1 <= i < |xs| ==> xs[i] == xs[1..][i - 1];
      if xs[0] >= m' then xs[0] else m'
  }

  /** `ratingArray.min() ?? 0`. */
  function MinRating(ms: seq<Movie>): (m: real)
    ensures forall i :: 0 <= i < |ms| && ms[i].rating.Some? ==> m <= ms[i].rating.value
    ensures (forall i :: 0 <= i < |ms| ==> ms[i].rating.None?) ==> m == 0.0
  {
    var rs := Ratings(ms);
    if |rs| == 0 then 0.0 else SeqMin(rs)
  }

  /** `ratingArray.max() ?? 10`. */
  function MaxRating(ms: seq<Movie>): (m: real)
    ensures forall i :: 0 <= i < |ms| && ms[i].rating.Some? ==> ms[i].rating.value <= m
    ensures (forall i :: 0 <= i < |ms| ==> ms[i].rating.None?) ==> m == 10.0
  {
    var rs := Ratings(ms);
    if |rs| == 0 then 10.0 else SeqMax(rs)
  }

  /** The range ends are the least and greatest parseable rating of the whole
      catalog, or 0 and 10 when no rating parses; either way min <= max. */
  lemma RatingBounds(ms: seq<Movie>)
    ensures forall i :: 0 <= i < |ms| && ms[i].rating.Some? ==>
              MinRating(ms) <= ms[i].rating.value <= MaxRating(ms)
    ensures (exists i :: 0 <= i < |ms| && ms[i].rating.Some?) ==>
              (exists i :: 0 <= i < |ms| && ms[i].rating == Some(MinRating(ms))) &&
              (exists i :: 0 <= i < |ms| && ms[i].rating == Some(MaxRating(ms)))
    ensures (forall i :: 0 <= i < |ms| ==> ms[i].rating.None?) ==>
              MinRating(ms) == 0.0 && MaxRating(ms) == 10.0
    ensures MinRating(ms) <= MaxRating(ms)
  {
    var rs := Ratings(ms);
    if |rs| > 0 {
      assert SeqMin(rs) <= rs[0] <= SeqMax(rs);
      forall i | 0 <= i < |ms| && ms[i].rating.Some?
        ensures MinRating(ms) <= ms[i].rating.value <= MaxRating(ms)
      {
        var k :| 0 <= k < |rs| && rs[k] == ms[i].rating.value;
      }
    }
  }

  /** Swift's `Int(_:)` on a floating value: truncation toward zero. */
  function Trunc(x: real): (n: int)
    ensures 0.0 <= x ==> n as real <= x < n as real + 1.0
    ensures x < 0.0 ==> n as real - 1.0 < x <= n as real
  {
    if x >= 0.0 then x.Floor else -((-x).Floor)
  }

  lemma TruncMonotone(x: real, y: real)
    requires x <= y
    ensures Trunc(x) <= Trunc(y)
  {
  }

  /** How many integers above `Int(minRating)` the threshold may lie. */
  function ThresholdSpan(ms: seq<Movie>): (span: nat)
    ensures Trunc(MinRating(ms)) + span == Trunc(MaxRating(ms))
  {
    RatingBounds(ms);
    TruncMonotone(MinRating(ms), MaxRating(ms));
    Trunc(MaxRating(ms)) - Trunc(MinRating(ms))
  }

  /** The threshold a given random offset selects. */
  function Threshold(ms: seq<Movie>, offset: nat): (t: int)
    requires offset <= ThresholdSpan(ms)
    ensures Trunc(MinRating(ms)) <= t <= Trunc(MaxRating(ms))
  {
    Trunc(MinRating(ms)) + offset
  }

  // ---------------------------------------------------------------- questions

  /** `rating > threshold` for "больше чем", `rating < threshold` for "меньше чем". */
  function CorrectAnswer(rating: real, threshold: int, moreThan: bool): (yes: bool)
    ensures rating == threshold as real ==> !yes
    ensures moreThan ==> (yes <==> threshold as real < rating)
    ensures !moreThan ==> (yes <==> rating < threshold as real)
  {
    if moreThan then rating > threshold as real else rating < threshold as real
  }

  const Preamble: string := "Рейтинг этого фильма "
  const MoreText: string := "больше чем "
  const LessText: string := "меньше чем "

  /** Where the threshold numeral starts: both direction words are eleven
      characters long. */
  const NumeralStart: nat := |Preamble| + |MoreText|

  /** The prompt for a threshold and direction. It reads back: the head is
      the preamble and the direction word, the numeral after it parses to
      the threshold, and the prompt ends in " ?". */
  function Prompt(threshold: int, moreThan: bool): (s: string)
    ensures |s| > NumeralStart + 2 && s[..|Preamble|] == Preamble
    ensures s[|Preamble|] == (if moreThan then 'б' else 'м')
    ensures s[..NumeralStart] == Preamble + (if moreThan then MoreText else LessText)
    ensures Decimal.IsNumeral(s[NumeralStart..|s| - 2])
    ensures Decimal.ParseInt(s[NumeralStart..|s| - 2]) == threshold
    ensures s[|s| - 2..] == " ?"
  {
    assert |LessText| == |MoreText|;
    var head := Preamble + (if moreThan then MoreText else LessText);
    var numeral := Decimal.IntToString(threshold);
    var s := head + numeral + " ?";
    assert s[NumeralStart..|s| - 2] == numeral;
    Decimal.IntRoundTrip(threshold);
    s
  }

  /** A random choice is valid when it indexes the pool the request will
      draw from and the threshold it selects lies in the rating range. */
  predicate ValidOracle(f: Factory, o: Oracle) {
    var p := Refill(f.pool, |f.movies|);
    (|p| == 0 || o.pick < |p|) && o.offset <= ThresholdSpan(f.movies)
  }

  /** Every factory state admits some random choice: the oracle's
      precondition never blocks a request. */
  lemma SomeOracleIsValid(f: Factory, image: Option<seq<int>>)
    ensures ValidOracle(f, Oracle(0, 0, true, image))
    ensures ValidOracle(f, Oracle(0, ThresholdSpan(f.movies), false, image))
  {
  }

  /** `requestNextQuestion`, run to completion. */
  function RequestNextQuestion(f: Factory, o: Oracle): (r: Response)
    requires ValidOracle(f, o)
    ensures r.factory.movies == f.movies
    // draw without replacement from the (refilled) pool
    ensures var p := Refill(f.pool, |f.movies|);
            && (|p| > 0 ==> r.index in p)
            && (|p| == 0 ==> r.index == 0)
            && (forall y :: y in r.factory.pool <==> y in p && y != r.index)
    // no movie at that index: nothing is delivered, the index is still used up
    ensures r.delivery.Silent? <==> !(0 <= r.index < |f.movies|)
    // the poster download failed: reported, the index stays used up
    ensures r.delivery.DidFailToLoadImage? <==> 0 <= r.index < |f.movies| && o.image.None?
    ensures r.delivery.DidReceiveNextQuestion? ==>
              var q := r.delivery.question;
              var t := Threshold(f.movies, o.offset);
              && 0 <= r.index < |f.movies|
              && o.image == Some(q.image)
              && Trunc(MinRating(f.movies)) <= t <= Trunc(MaxRating(f.movies))
              && q.text == Prompt(t, o.moreThan)
              && q.correctAnswer == CorrectAnswer(RatingValue(f.movies[r.index]), t, o.moreThan)
  {
    var p := Refill(f.pool, |f.movies|);
    var index := DrawnIndex(f, o.pick);
    var f' := f.(pool := Without(p, index));
    if !(0 <= index < |f.movies|) then Response(f', index, Silent)
    else match o.image
      case None => Response(f', index, DidFailToLoadImage)
      case Some(bytes) =>
        var movie := f.movies[index];
        var rating := RatingValue(movie);
        var t := Threshold(f.movies, o.offset);
        var q := QuizQuestion(bytes, Prompt(t, o.moreThan), CorrectAnswer(rating, t, o.moreThan));
        Response(f', index, DidReceiveNextQuestion(q))
  }

  // ---------------------------------------------------------------- pool properties

  /** A pool with no repeated entries keeps that shape, and a request from
      it (or from a refill) shrinks the pool by exactly one. */
  lemma RequestShrinksPool(f: Factory, o: Oracle)
    requires ValidOracle(f, o)
    requires Distinct(f.pool)
    ensures Distinct(RequestNextQuestion(f, o).factory.pool)
    ensures var p := Refill(f.pool, |f.movies|);
            |p| > 0 ==> |RequestNextQuestion(f, o).factory.pool| == |p| - 1
  {
    var p := Refill(f.pool, |f.movies|);
    RangeDistinct(|f.movies|);
    WithoutDistinct(p, DrawnIndex(f, o.pick));
  }

  /** Oracles valid for each request of a sequence, in turn. */
  predicate ValidRun(f: Factory, os: seq<Oracle>)
    decreases |os|
  {
    |os| == 0 ||
    (ValidOracle(f, os[0]) && ValidRun(RequestNextQuestion(f, os[0]).factory, os[1..]))
  }

  /** The indices drawn by consecutive requests. */
  function DrawnIndices(f: Factory, os: seq<Oracle>): seq<int>
    requires ValidRun(f, os)
    decreases |os|
  {
    if |os| == 0 then []
    else
      var r := RequestNextQuestion(f, os[0]);
      [r.index] + DrawnIndices(r.factory, os[1..])
  }

  /** The state after consecutive requests. */
  function After(f: Factory, os: seq<Oracle>): Factory
    requires ValidRun(f, os)
    decreases |os|
  {
    if |os| == 0 then f else After(RequestNextQuestion(f, os[0]).factory, os[1..])
  }

  /** Exhausting a non-empty pool with no repeated entries draws each of its
      entries exactly once and leaves the pool empty. */
  lemma {:induction false} DrainPool(f: Factory, os: seq<Oracle>)
    requires |f.pool| > 0 && Distinct(f.pool)
    requires |os| == |f.pool|
    requires ValidRun(f, os)
    ensures Distinct(DrawnIndices(f, os))
    ensures forall y :: y in DrawnIndices(f, os) <==> y in f.pool
    ensures |After(f, os).pool| == 0
    ensures After(f, os).movies == f.movies
    decreases |os|
  {
    var r := RequestNextQuestion(f, os[0]);
    RequestShrinksPool(f, os[0]);
    var drawn := DrawnIndices(f, os);
    if |os| == 1 {
      assert |r.factory.pool| == 0;
      assert |os[1..]| == 0;
      assert drawn == [r.index] + DrawnIndices(r.factory, os[1..]) == [r.index];
    } else {
      assert ValidRun(r.factory, os[1..]);
      assert |r.factory.pool| == |f.pool| - 1 > 0;
      assert |os[1..]| == |r.factory.pool|;
      DrainPool(r.factory, os[1..]);
      var rest := DrawnIndices(r.factory, os[1..]);
      assert drawn == [r.index] + rest;
      assert r.index !in rest;
      forall i, j | 0 <= i < j < |drawn|
        ensures drawn[i] != drawn[j]
      {
        if i == 0 {
          assert drawn[j] in rest;
        } else {
          assert drawn[i] == rest[i - 1] && drawn[j] == rest[j - 1];
        }
      }
    }
  }

  /** No movie repeats within a cycle: from an empty pool over a catalog of
      N movies, N consecutive requests draw N distinct indices, which are
      exactly 0..N-1, and the pool is empty again for the next refill. */
  lemma NoRepeatWithinCycle(f: Factory, os: seq<Oracle>)
    requires |f.pool| == 0 && |f.movies| > 0
    requires |os| == |f.movies|
    requires ValidRun(f, os)
    ensures Distinct(DrawnIndices(f, os))
    ensures forall y :: y in DrawnIndices(f, os) <==> 0 <= y < |f.movies|
    ensures |After(f, os).pool| == 0
  {
    var full := f.(pool := Range(|f.movies|));
    RangeDistinct(|f.movies|);
    assert RequestNextQuestion(f, os[0]) == RequestNextQuestion(full, os[0]);
    assert ValidRun(full, os);
    assert DrawnIndices(f, os) == DrawnIndices(full, os);
    assert After(f, os) == After(full, os);
    DrainPool(full, os);
  }

  /** Every pool entry names a movie of the current catalog. */
  predicate PoolWithinCatalog(f: Factory) {
    forall y :: y in f.pool ==> 0 <= y < |f.movies|
  }

  /** Requests keep the pool within the catalog; a reload keeps it there only
      if the new catalog is at least as long as the pool needs. */
  lemma PoolStaysWithinCatalog(f: Factory, o: Oracle, movies: seq<Movie>)
    requires PoolWithinCatalog(f)
    ensures ValidOracle(f, o) ==> PoolWithinCatalog(RequestNextQuestion(f, o).factory)
    ensures (forall y :: y in f.pool ==> y < |movies|) <==>
              PoolWithinCatalog(LoadData(f, Success(movies)).0)
  {
    RangeDistinct(|f.movies|);
  }

  /** A pool entry left over from a longer catalog names no movie after a
      reload: drawing it delivers nothing and still removes it. */
  lemma StaleIndexIsConsumed(f: Factory, movies: seq<Movie>, o: Oracle)
    requires |f.pool| > 0 && o.pick < |f.pool|
    requires f.pool[o.pick] >= |movies|
    requires o.offset <= ThresholdSpan(movies)
    ensures var g := LoadData(f, Success(movies)).0;
            ValidOracle(g, o) &&
            RequestNextQuestion(g, o).delivery == Silent &&
            f.pool[o.pick] !in RequestNextQuestion(g, o).factory.pool
  {
  }

  /** With an empty catalog a request never delivers anything, and the pool
      stays empty. */
  lemma EmptyCatalogIsSilent(f: Factory, o: Oracle)
    requires |f.movies| == 0 && |f.pool| == 0
    requires ValidOracle(f, o)
    ensures RequestNextQuestion(f, o).delivery == Silent
    ensures RequestNextQuestion(f, o).factory == f
  {
  }

  /** A request made before any catalog has loaded delivers nothing and
      leaves the factory as it was; it does not fail. */
  lemma RequestBeforeLoadIsSilent(o: Oracle)
    ensures ValidOracle(Init(), o) <==> o.offset <= 10
    ensures ValidOracle(Init(), o) ==>
              RequestNextQuestion(Init(), o).delivery == Silent &&
              RequestNextQuestion(Init(), o).factory == Init()
  {
    RatingBounds([]);
    if ValidOracle(Init(), o) {
      EmptyCatalogIsSilent(Init(), o);
    }
  }

  // ---------------------------------------------------------------- answers

  /** A rating equal to the threshold answers "no" in both directions;
      otherwise exactly one direction answers "yes". */
  lemma AnswerDirections(rating: real, threshold: int)
    ensures rating == threshold as real ==>
              !CorrectAnswer(rating, threshold, true) && !CorrectAnswer(rating, threshold, false)
    ensures rating != threshold as real ==>
              CorrectAnswer(rating, threshold, true) != CorrectAnswer(rating, threshold, false)
    ensures CorrectAnswer(rating, threshold, true) <==> rating > threshold as real
  {
  }

  /** 7.5 is greater than 6; 5 is neither greater nor less than 5. */
  lemma AnswerExamples()
    ensures CorrectAnswer(7.5, 6, true)
    ensures !CorrectAnswer(5.0, 5, true) && !CorrectAnswer(5.0, 5, false)
  {
  }

  /** The prompt names its threshold and direction unambiguously. */
  lemma PromptInjective(t1: int, m1: bool, t2: int, m2: bool)
    ensures Prompt(t1, m1) == Prompt(t2, m2) <==> t1 == t2 && m1 == m2
  {
    if Prompt(t1, m1) == Prompt(t2, m2) {
      var s := Prompt(t1, m1);
      assert s[|Preamble|] == (if m2 then 'б' else 'м');
      assert t1 == Decimal.ParseInt(s[NumeralStart..|s| - 2]) == t2;
    }
  }

  /** A delivered question's text fixes its expected answer: whoever reads
      "больше чем t" or "меньше чем t" and knows the movie's rating can tell
      whether "yes" is right. */
  lemma TextDeterminesAnswer(f: Factory, o: Oracle, threshold: int, moreThan: bool)
    requires ValidOracle(f, o)
    requires RequestNextQuestion(f, o).delivery.DidReceiveNextQuestion?
    requires RequestNextQuestion(f, o).delivery.question.text == Prompt(threshold, moreThan)
    ensures var r := RequestNextQuestion(f, o);
            r.delivery.question.correctAnswer ==
              CorrectAnswer(RatingValue(f.movies[r.index]), threshold, moreThan)
  {
    PromptInjective(threshold, moreThan, Threshold(f.movies, o.offset), o.moreThan);
  }
}

=== FILE: quiz_question.dfy ===
/** A question as the factory delivers it and the presenter shows it. */
module QuizQuestions {

  /** Poster bytes, prompt and expected answer. */
  datatype QuizQuestion = QuizQuestion(image: seq<int>, text: string, correctAnswer: bool)
}

=== FILE: quiz_round.dfy ===
/** The self-contained round logic of the mock-data view controller: ten
    fixed questions, a correct-answer counter, the answer block that holds
    during the one-second pause, and the per-session totals shown when a
    round ends.

    Screen updates, haptics and border colours are dropped. The pause that
    `asyncAfter` schedules becomes the explicit `PauseEnded` event, and the
    results alert becomes the `resultsShown` flag: while the alert is on
    screen it covers the answer buttons, and its only action is "play again". */
module QuizRound {
  import Decimal

  datatype MockQuestion = MockQuestion(image: string, text: string, correctAnswer: bool)

  const Prompt: string := "Рейтинг этого фильма больше чем 6?"

  /** The mock questions, in order. */
  const Questions: seq<MockQuestion> := [
    MockQuestion("The Godfather", Prompt, true),
    MockQuestion("The Dark Knight", Prompt, true),
    MockQuestion("Kill Bill", Prompt, true),
    MockQuestion("The Avengers", Prompt, true),
    MockQuestion("Deadpool", Prompt, true),
    MockQuestion("The Green Knight", Prompt, true),
    MockQuestion("Old", Prompt, false),
    MockQuestion("The Ice Age Adventures of Buck Wild", Prompt, false),
    MockQuestion("Tesla", Prompt, false),
    MockQuestion("Vivarium", Prompt, false)
  ]

  datatype Round = Round(
    correctAnswers: int,
    currentQuestionIndex: int,
    numberOfQuiz: int,
    sumCorrectAnswers: int,
    recordAnswers: int,
    recordDate: string,
    showAnswerBlock: bool,
    resultsShown: bool)

  /** User actions and timer expiry. `PauseEnded` carries the formatted
      date-time the clock reads when it fires. */
  datatype Event = YesClicked | NoClicked | PauseEnded(now: string) | PlayAgain

  function Init(): Round {
    Round(0, 0, 1, 0, 0, "", false, false)
  }

  /** The states the controller can reach. */
  predicate Valid(s: Round) {
    && 0 <= s.currentQuestionIndex < |Questions|
    && s.numberOfQuiz >= 1
    && !(s.showAnswerBlock && s.resultsShown)
    && (s.resultsShown ==> s.currentQuestionIndex == |Questions| - 1)
    && 0 <= s.correctAnswers
    && s.correctAnswers <= s.currentQuestionIndex + (if s.showAnswerBlock || s.resultsShown then 1 else 0)
    && 0 <= s.sumCorrectAnswers
    && (!s.resultsShown ==> s.sumCorrectAnswers <= |Questions| * (s.numberOfQuiz - 1))
    && (s.resultsShown ==> s.sumCorrectAnswers <= |Questions| * s.numberOfQuiz)
    && 0 <= s.recordAnswers <= |Questions|
    && (s.resultsShown ==> s.correctAnswers <= s.recordAnswers)
  }

  lemma InitValid()
    ensures Valid(Init())
  {
  }

  /** `showAnswerResult(isCorrect:)`: ignored while the block holds; otherwise
      counts a correct answer and raises the block for the pause. */
  function ShowAnswerResult(s: Round, isCorrect: bool): (s': Round)
    ensures s.showAnswerBlock ==> s' == s
    ensures !s.showAnswerBlock ==>
              && s'.showAnswerBlock
              && s'.correctAnswers == s.correctAnswers + (if isCorrect then 1 else 0)
              && s' == s.(correctAnswers := s'.correctAnswers, showAnswerBlock := true)
  {
    if s.showAnswerBlock then s
    else s.(correctAnswers := if isCorrect then s.correctAnswers + 1 else s.correctAnswers,
            showAnswerBlock := true)
  }

  /** `showNextQuestionOrResults()`: on the last question, fold the round into
      the session totals and show the results; otherwise move to the next question. */
  function ShowNextQuestionOrResults(s: Round, now: string): (s': Round)
    ensures s.currentQuestionIndex == |Questions| - 1 ==>
              && s'.resultsShown
              && s'.sumCorrectAnswers == s.sumCorrectAnswers + s.correctAnswers
              && (s.correctAnswers > s.recordAnswers ==>
                    s'.recordAnswers == s.correctAnswers && s'.recordDate == now)
              && (s.correctAnswers <= s.recordAnswers ==>
                    s'.recordAnswers == s.recordAnswers && s'.recordDate == s.recordDate)
              && s'.currentQuestionIndex == s.currentQuestionIndex
              && s'.correctAnswers == s.correctAnswers
              && s'.numberOfQuiz == s.numberOfQuiz
              && s'.showAnswerBlock == s.showAnswerBlock
              && s' == s.(sumCorrectAnswers := s'.sumCorrectAnswers, recordAnswers := s'.recordAnswers,
                          recordDate := s'.recordDate, resultsShown := true)
    ensures s.currentQuestionIndex != |Questions| - 1 ==>
              s' == s.(currentQuestionIndex := s.currentQuestionIndex + 1)
  {
    if s.currentQuestionIndex == |Questions| - 1 then
      var record := s.correctAnswers > s.recordAnswers;
      s.(sumCorrectAnswers := s.sumCorrectAnswers + s.correctAnswers,
         recordAnswers := if record then s.correctAnswers else s.recordAnswers,
         recordDate := if record then now else s.recordDate,
         resultsShown := true)
    else
      s.(currentQuestionIndex := s.currentQuestionIndex + 1)
  }

  /** Whether pressing "Yes" (`yes == true`) or "No" answers the current
      question correctly. */
  function IsCorrect(s: Round, yes: bool): (c: bool)
    requires 0 <= s.currentQuestionIndex < |Questions|
    ensures c <==> Questions[s.currentQuestionIndex].correctAnswer == yes
  {
    if yes then Questions[s.currentQuestionIndex].correctAnswer
    else !Questions[s.currentQuestionIndex].correctAnswer
  }

  /** One event. Answers are not delivered while the results alert covers
      the buttons; the pause end only fires after an answer raised the
      block; "play again" exists only on the alert. */
  function Step(s: Round, e: Event): (s': Round)
    requires Valid(s)
    ensures Valid(s')
    ensures s'.numberOfQuiz >= s.numberOfQuiz
    ensures s'.sumCorrectAnswers >= s.sumCorrectAnswers
    ensures s'.recordAnswers >= s.recordAnswers
    ensures s'.sumCorrectAnswers <= |Questions| * s'.numberOfQuiz
    // answering: the block makes a second answer a no-op
    ensures (e.YesClicked? || e.NoClicked?) && (s.showAnswerBlock || s.resultsShown) ==> s' == s
    ensures (e.YesClicked? || e.NoClicked?) && !s.showAnswerBlock && !s.resultsShown ==>
              && s'.showAnswerBlock
              && s'.currentQuestionIndex == s.currentQuestionIndex
              && (s'.correctAnswers == s.correctAnswers + 1 <==>
                    Questions[s.currentQuestionIndex].correctAnswer == e.YesClicked?)
              && (s'.correctAnswers == s.correctAnswers <==>
                    Questions[s.currentQuestionIndex].correctAnswer != e.YesClicked?)
              // nothing but the score and the block changes
              && s' == s.(correctAnswers := s'.correctAnswers, showAnswerBlock := true)
    // the pause end clears the block and advances, or ends the round
    ensures e.PauseEnded? && s.showAnswerBlock ==>
              && !s'.showAnswerBlock
              && s'.correctAnswers == s.correctAnswers
              && (s.currentQuestionIndex < |Questions| - 1 ==>
                    && s'.currentQuestionIndex == s.currentQuestionIndex + 1 && !s'.resultsShown
                    && s' == s.(showAnswerBlock := false, currentQuestionIndex := s'.currentQuestionIndex))
              && (s.currentQuestionIndex == |Questions| - 1 ==>
                    && s'.resultsShown
                    && s'.sumCorrectAnswers == s.sumCorrectAnswers + s.correctAnswers
                    && s'.recordAnswers == (if s.correctAnswers > s.recordAnswers
                                            then s.correctAnswers else s.recordAnswers)
                    && s'.recordDate == (if s.correctAnswers > s.recordAnswers
                                         then e.now else s.recordDate)
                    && s' == s.(showAnswerBlock := false, sumCorrectAnswers := s'.sumCorrectAnswers,
                                recordAnswers := s'.recordAnswers, recordDate := s'.recordDate,
                                resultsShown := true))
    ensures e.PauseEnded? && !s.showAnswerBlock ==> s' == s
    // play again
    ensures e.PlayAgain? && s.resultsShown ==>
              && s'.correctAnswers == 0
              && s'.currentQuestionIndex == 0
              && s'.numberOfQuiz == s.numberOfQuiz + 1
              && !s'.resultsShown
              && s'.sumCorrectAnswers == s.sumCorrectAnswers
              && s'.recordAnswers == s.recordAnswers
              && s' == s.(correctAnswers := 0, currentQuestionIndex := 0,
                          numberOfQuiz := s'.numberOfQuiz, resultsShown := false)
    ensures e.PlayAgain? && !s.resultsShown ==> s' == s
  {
    match e
    case YesClicked =>
      if s.resultsShown then s else ShowAnswerResult(s, IsCorrect(s, true))
    case NoClicked =>
      if s.resultsShown then s else ShowAnswerResult(s, IsCorrect(s, false))
    case PauseEnded(now) =>
      if !s.showAnswerBlock then s
      else ShowNextQuestionOrResults(s.(showAnswerBlock := false), now)
    case PlayAgain =>
      if !s.resultsShown then s
      else s.(correctAnswers := 0, numberOfQuiz := s.numberOfQuiz + 1,
              currentQuestionIndex := 0, resultsShown := false)
  }

  /** A sequence of events from a reachable state. */
  function Run(s: Round, es: seq<Event>): Round
    requires Valid(s)
    decreases |es|
  {
    if |es| == 0 then s else Run(Step(s, es[0]), es[1..])
  }

  /** The average accuracy on the results screen: correct answers over all
      questions of all rounds played so far, as a percentage. */
  function DisplayedAccuracy(s: Round): (a: real)
    requires s.numberOfQuiz >= 1
    ensures a * ((|Questions| * s.numberOfQuiz) as real) == 100.0 * (s.sumCorrectAnswers as real)
    ensures s.sumCorrectAnswers == 0 ==> a == 0.0
  {
    var den := (|Questions| * s.numberOfQuiz) as real;
    assert den >= 10.0;
    100.0 * (s.sumCorrectAnswers as real) / den
  }

  /** Whatever the user does, the counters stay consistent, the session
      totals never shrink, and the displayed accuracy stays within 0..100%. */
  lemma {:induction false} RunKeepsValid(s: Round, es: seq<Event>)
    requires Valid(s)
    ensures Valid(Run(s, es))
    ensures Run(s, es).numberOfQuiz >= s.numberOfQuiz
    ensures Run(s, es).sumCorrectAnswers >= s.sumCorrectAnswers
    ensures Run(s, es).recordAnswers >= s.recordAnswers
    ensures 0.0 <= DisplayedAccuracy(Run(s, es)) <= 100.0
    decreases |es|
  {
    if |es| > 0 {
      RunKeepsValid(Step(s, es[0]), es[1..]);
    } else {
      AccuracyIsPercentage(s);
    }
  }

  lemma AccuracyIsPercentage(s: Round)
    requires Valid(s)
    ensures 0.0 <= DisplayedAccuracy(s) <= 100.0
  {
    var den := (|Questions| * s.numberOfQuiz) as real;
    assert s.sumCorrectAnswers <= |Questions| * s.numberOfQuiz;
    assert (s.sumCorrectAnswers as real) <= den;
    assert den > 0.0;
  }

  /** The "k/10" counter shown with the current question: read back, the
      number before the slash is the one-based question number and the
      number after it is the round's length. */
  function QuestionNumber(s: Round): (counter: string)
    ensures var n := |Decimal.IntToString(s.currentQuestionIndex + 1)|;
            n < |counter| && counter[n] == '/' && '/' !in counter[..n]
            && Decimal.IsNumeral(counter[..n]) && Decimal.ParseInt(counter[..n]) == s.currentQuestionIndex + 1
            && Decimal.IsNumeral(counter[n + 1..]) && Decimal.ParseInt(counter[n + 1..]) == |Questions|
  {
    Decimal.CounterLabel(s.currentQuestionIndex + 1, |Questions|)
  }

  /** "Play again" starts a fresh round on the first question, labelled "1/10",
      keeping the session's totals and record. */
  lemma PlayAgainRestarts(s: Round)
    requires Valid(s) && s.resultsShown
    ensures QuestionNumber(Step(s, PlayAgain)) == "1/10"
    ensures Step(s, PlayAgain).sumCorrectAnswers == s.sumCorrectAnswers
  {
    assert Decimal.IntToString(1) == "1";
    assert Decimal.IntToString(10) == Decimal.NatToString(1) + [Decimal.DigitChar(0)] == "10";
  }

  /** The button that answers question `i` correctly. */
  function RightButton(i: nat): Event
    requires i < |Questions|
  {
    if Questions[i].correctAnswer then YesClicked else NoClicked
  }

  /** Answering questions `i`..9 correctly, each followed by its pause. */
  function PerfectPlay(i: nat): seq<Event>
    requires i <= |Questions|
    decreases |Questions| - i
  {
    if i == |Questions| then [] else [RightButton(i), PauseEnded("")] + PerfectPlay(i + 1)
  }

  /** Answering every remaining question correctly adds one per question and
      ends the round with the score folded into the session total. */
  lemma {:induction false} PerfectPlayScores(s: Round, i: nat)
    requires Valid(s) && !s.showAnswerBlock && !s.resultsShown
    requires s.currentQuestionIndex == i
    ensures Run(s, PerfectPlay(i)).resultsShown
    ensures Run(s, PerfectPlay(i)).correctAnswers == s.correctAnswers + (|Questions| - i)
    ensures Run(s, PerfectPlay(i)).sumCorrectAnswers
              == s.sumCorrectAnswers + s.correctAnswers + (|Questions| - i)
    decreases |Questions| - i
  {
    var es := PerfectPlay(i);
    var s1 := Step(s, RightButton(i));
    var s2 := Step(s1, PauseEnded(""));
    assert s1.correctAnswers == s.correctAnswers + 1;
    assert Run(s, es) == Run(s2, es[2..]) by {
      assert es[0] == RightButton(i) && es[1] == PauseEnded("");
      assert es[1..][1..] == es[2..];
    }
    assert es[2..] == PerfectPlay(i + 1);
    if i == |Questions| - 1 {
      assert PerfectPlay(i + 1) == [];
    } else {
      PerfectPlayScores(s2, i + 1);
    }
  }

  /** A first round answered perfectly scores 10 of 10, sets the record to 10
      and shows an average accuracy of 100%. The start state and the first
      question arrive as parameters pinned by the precondition, rather than as
      the literals `Init()` and `0`, so that the verifier does not unfold the
      twenty-step run eagerly; the lemma is about exactly one input. */
  lemma PerfectFirstRound(start: Round, first: nat)
    requires start == Init() && first == 0
    ensures Run(start, PerfectPlay(first)).correctAnswers == 10
    ensures Run(start, PerfectPlay(first)).recordAnswers == 10
    ensures Run(start, PerfectPlay(first)).numberOfQuiz == 1
    ensures DisplayedAccuracy(Run(start, PerfectPlay(first))) == 100.0
  {
    PerfectPlayScores(start, first);
    NumberOfQuizFixedInRound(start, first);
    RunKeepsValid(start, PerfectPlay(first));
    var s := Run(start, PerfectPlay(first));
    assert s.sumCorrectAnswers == 10 && s.numberOfQuiz == 1;
  }


  /** A round played without "play again" stays the same quiz number. */
  lemma {:induction false} NumberOfQuizFixedInRound(s: Round, i: nat)
    requires Valid(s) && !s.showAnswerBlock && !s.resultsShown
    requires s.currentQuestionIndex == i
    ensures Run(s, PerfectPlay(i)).numberOfQuiz == s.numberOfQuiz
    decreases |Questions| - i
  {
    var es := PerfectPlay(i);
    var s2 := Step(Step(s, RightButton(i)), PauseEnded(""));
    assert Run(s, es) == Run(s2, es[2..]) by {
      assert es[1..][1..] == es[2..];
    }
    assert es[2..] == PerfectPlay(i + 1);
    if i < |Questions| - 1 {
      NumberOfQuizFixedInRound(s2, i + 1);
    } else {
      assert PerfectPlay(i + 1) == [];
    }
  }
}

=== FILE: statistic_service.dfy ===
/** The persisted statistics aggregate: running sums of correct answers and
    questions, the number of games, and the best game. The key-value layer
    is a plain record holding the four entries; `bestGame` is `None` when its
    entry is missing or cannot be decoded. */
module StatisticService {
  import opened Wrappers
  import opened GameRecords

  datatype Defaults = Defaults(
    correct: int,                   // key "correct"
    total: int,                     // key "total"
    gamesCount: int,                // key "gamesCount"
    bestGame: Option<GameRecord>)   // key "bestGame", after decoding

  /** A store on first use: integer keys read as 0, no best game saved. */
  function Empty(): (d: Defaults)
    ensures d.correct == 0 && d.total == 0 && d.gamesCount == 0 && d.bestGame.None?
  {
    Defaults(0, 0, 0, None)
  }

  /** The `bestGame` getter: the decoded record, or a 0-of-0 record dated `now`
      when nothing readable is stored. */
  function BestGame(d: Defaults, now: Date): (g: GameRecord)
    ensures d.bestGame.Some? ==> g == d.bestGame.value
    ensures d.bestGame.None? ==> g.correct == 0 && g.total == 0 && g.date == now
  {
    d.bestGame.GetOr(GameRecord(0, 0, now))
  }

  /** The `totalAccuracy` getter, as a percentage of all questions played. */
  function TotalAccuracy(d: Defaults): (a: real)
    ensures d.total == 0 ==> a == 0.0
    ensures d.total != 0 ==> a * (d.total as real) == 100.0 * (d.correct as real)
  {
    if d.total != 0 then 100.0 * (d.correct as real) / (d.total as real) else 0.0
  }

  /** `store(correct:total:)` at time `now`, comparing games with ordering `o`. */
  function Store(o: Ordering, d: Defaults, count: int, amount: int, now: Date): (d': Defaults)
    ensures d'.correct == d.correct + count
    ensures d'.total == d.total + amount
    ensures d'.gamesCount == d.gamesCount + 1
    ensures Less(o, BestGame(d, now), GameRecord(count, amount, now))
            ==> d'.bestGame == Some(GameRecord(count, amount, now))
    ensures !Less(o, BestGame(d, now), GameRecord(count, amount, now))
            ==> d'.bestGame == d.bestGame
    ensures !Less(o, BestGame(d', now), GameRecord(count, amount, now))
  {
    var current := GameRecord(count, amount, now);
    var best := if Less(o, BestGame(d, now), current) then Some(current) else d.bestGame;
    Defaults(d.correct + count, d.total + amount, d.gamesCount + 1, best)
  }

  /** A store whose sums describe real games: nothing negative, never more
      correct answers than questions. */
  predicate Consistent(d: Defaults) {
    0 <= d.correct <= d.total && d.gamesCount >= 0
  }

  /** Storing a real game keeps the store consistent, so the total accuracy
      stays a percentage. */
  lemma StoreKeepsConsistent(o: Ordering, d: Defaults, count: int, amount: int, now: Date)
    requires Consistent(d)
    requires 0 <= count <= amount
    ensures Consistent(Store(o, d, count, amount, now))
    ensures 0.0 <= TotalAccuracy(Store(o, d, count, amount, now)) <= 100.0
  {
    var d' := Store(o, d, count, amount, now);
    AccuracyIsPercentage(d');
  }

  lemma AccuracyIsPercentage(d: Defaults)
    requires Consistent(d)
    ensures 0.0 <= TotalAccuracy(d) <= 100.0
  {
    if d.total != 0 {
      var a := TotalAccuracy(d);
      assert a * (d.total as real) == 100.0 * (d.correct as real);
      assert a * (d.total as real) <= 100.0 * (d.total as real);
    }
  }

  /** The best game, as the getter reads it, never gets worse under the
      store's ordering, whatever the clock says at either read. */
  lemma BestNeverWorse(o: Ordering, d: Defaults, count: int, amount: int, now: Date, before: Date, after: Date)
    ensures !Less(o, BestGame(Store(o, d, count, amount, now), after), BestGame(d, before))
    ensures o == ByCorrect ==>
              BestGame(Store(o, d, count, amount, now), after).correct >= BestGame(d, before).correct
    ensures o == ByAccuracy ==>
              Accuracy(BestGame(Store(o, d, count, amount, now), after)) >= Accuracy(BestGame(d, before))
  {
    var d' := Store(o, d, count, amount, now);
    LessIsLowerScore(o, BestGame(d', after), BestGame(d, before));
    LessIsLowerScore(o, BestGame(d, now), GameRecord(count, amount, now));
    assert Score(o, BestGame(d, now)) == Score(o, BestGame(d, before));
    assert Score(o, BestGame(d', after)) >= Score(o, BestGame(d, before));
  }

  /** A sequence of `store` calls, one per game, each at the game's own date. */
  function StoreAll(o: Ordering, d: Defaults, games: seq<GameRecord>): Defaults
    decreases |games|
  {
    if |games| == 0 then d
    else StoreAll(o, Store(o, d, games[0].correct, games[0].total, games[0].date), games[1..])
  }

  function SumCorrect(games: seq<GameRecord>): int {
    if |games| == 0 then 0 else games[0].correct + SumCorrect(games[1..])
  }

  function SumTotal(games: seq<GameRecord>): int {
    if |games| == 0 then 0 else games[0].total + SumTotal(games[1..])
  }

  /** After any sequence of games the three counters are exactly the running
      sums, and the best game is not below any game stored. */
  lemma {:induction false} StoreAllAggregates(o: Ordering, d: Defaults, games: seq<GameRecord>, now: Date)
    ensures StoreAll(o, d, games).correct == d.correct + SumCorrect(games)
    ensures StoreAll(o, d, games).total == d.total + SumTotal(games)
    ensures StoreAll(o, d, games).gamesCount == d.gamesCount + |games|
    ensures forall i :: 0 <= i < |games| ==> !Less(o, BestGame(StoreAll(o, d, games), now), games[i])
    ensures Score(o, BestGame(StoreAll(o, d, games), now)) >= Score(o, BestGame(d, now))
    decreases |games|
  {
    if |games| > 0 {
      var g := games[0];
      var d1 := Store(o, d, g.correct, g.total, g.date);
      var rest := games[1..];
      StoreAllAggregates(o, d1, rest, now);
      var last := StoreAll(o, d1, rest);
      assert last == StoreAll(o, d, games);
      BestNeverWorse(o, d, g.correct, g.total, g.date, now, now);
      LessIsLowerScore(o, BestGame(d1, now), BestGame(d, now));
      assert !Less(o, BestGame(d1, g.date), g);
      LessIsLowerScore(o, BestGame(d1, g.date), g);
      assert Score(o, BestGame(d1, now)) == Score(o, BestGame(d1, g.date));
      forall i | 0 <= i < |games|
        ensures !Less(o, BestGame(last, now), games[i])
      {
        LessIsLowerScore(o, BestGame(last, now), games[i]);
        if i > 0 {
          assert games[i] == rest[i - 1];
        }
      }
    }
  }

  /** 3 of 10 then 7 of 10 on a fresh store give a total accuracy of 50%. */
  lemma TwoGamesAverage(o: Ordering, t1: Date, t2: Date)
    ensures TotalAccuracy(Store(o, Store(o, Empty(), 3, 10, t1), 7, 10, t2)) == 50.0
  {
  }

  /** 5 of 10 becomes the best game, 3 of 10 leaves it, 9 of 10 replaces it,
      under either ordering. */
  lemma BestGameScenario(o: Ordering, t1: Date, t2: Date, t3: Date)
    ensures var d1 := Store(o, Empty(), 5, 10, t1);
            var d2 := Store(o, d1, 3, 10, t2);
            var d3 := Store(o, d2, 9, 10, t3);
            d1.bestGame == Some(GameRecord(5, 10, t1)) &&
            d2.bestGame == d1.bestGame &&
            d3.bestGame == Some(GameRecord(9, 10, t3))
  {
    var d1 := Store(o, Empty(), 5, 10, t1);
    assert Accuracy(GameRecord(5, 10, t1)) == 50.0;
    assert Accuracy(GameRecord(3, 10, t2)) == 30.0;
    assert Accuracy(GameRecord(9, 10, t3)) == 90.0;
  }
}

=== FILE: wrappers.dfy ===
/** Failure-carrying datatypes shared by the model: Swift optionals become
    `Option`, Swift's `Result<Success, Failure>` becomes `Result`. */
module Wrappers {

  datatype Option<+T> = None | Some(value: T) {

    /** The wrapped value, or `default` when there is none (Swift's `??`). */
    function GetOr(default: T): T {
      match this
      case Some(v) => v
      case None => default
    }
  }

  datatype Result<+R, +E> = Success(value: R) | Failure(error: E)
}
